=== FILE: README.md ===
# Carpooling backend: decision logic in Dafny

This project models the decision logic inside the request handlers of a
small carpooling backend built on Express and MongoDB. Drivers publish ride
offers. Riders search for offers, which are ranked by a match score, and ask
to join them. The owning driver approves or rejects each request. Users
register and sign in. They can view their profile under privacy masking,
update it, and keep a list of emergency contacts. A Rider and a Driver can
exchange private messages.

Every handler is modelled as a pure function of the records it reads.
The database lookups (`findById`, `findOne`, `find`) become searches over
sequences, or their results are passed in. A handler that succeeds returns
the record or collection as it is stored afterwards. A handler that fails
returns the HTTP status and message it answers with, and stores nothing.

Modules, one per file:

- `Replies` (`replies.dfy`): `Option`, `Result`, and the `Error` (status, message) pair.
- `Text` (`text.dfy`): JavaScript string behaviour. This covers ASCII
  `toLowerCase`, the `\s` class, truthiness, `charAt` and `slice(-n)`.
- `UserModel` (`user_model.dfy`): the `User` schema. This covers the role
  enumeration, defaults, contact validation, the unique indexes, `findById` and `findOne`.
- `RideModel` (`ride_model.dfy`): the `Ride` schema. This covers preference
  defaults, the seat minimum and `save`.
- `Matching` (`matching.dfy`): the three sub-scores and the weighted match score.
- `StableSort` (`stable_sort.dfy`): a comparator-driven stable sort. It
  models `Array.prototype.sort` and the database's ascending sort.
- `Ranking` (`ranking.dfy`): the ride search handler.
- `RideRequests` (`ride_requests.dfy`): creating rides, requesting to join,
  and approving or rejecting requests.
- `Auth` (`auth.dfy`): registration validation and login.
- `Profiles` (`profiles.dfy`): profile masking and the three profile updates.
- `Messaging` (`messaging.dfy`): sending messages and reading a conversation.

Some behaviours of the code worth noting:

- An empty preference object is truthy. So the preference part is `0/0`,
  which is `NaN`, and the whole score is `NaN` (`None` here). It is not 1.0.
  The default of 1 applies only when the parsed preferences are falsy (`null`).
  A search that sends no `preferences` at all parses `'{}'`, so this is the
  usual case: every score is `NaN` and the results come back unranked.
- A `NaN` comparator result counts as zero. So when every score is `NaN`, the
  ranking is the store's order.
- A missing requested departure makes the time difference `NaN`. Every
  bucket test then fails, and the timing part is 0.2.
- The lowest score is 0.28 for a keyed preference object and 0.48 for falsy
  preferences. It is not 0.2.
- Approval checks neither the seat count nor a prior request. The schema's
  `min: 1` then refuses to store a ride whose last seat was just taken.
- An approved passenger can request the same ride again and be approved
  again. So a rider can appear in both `requests` and `passengers`, and can
  appear twice in `passengers`.
- Registration does not check for a duplicate phone (that check is commented
  out). The unique index on `phone` then makes the insert fail with a server
  error.

## Model

| member | source | states |
|---|---|---|
| `Matching.LocationScore` | Backend/controllers/rideController.js:41-42 | The location part is 0.5, 0.75 or 1.0. It is 1.0 exactly when both endpoints match ignoring case, and 0.5 exactly when neither does |
| `Matching.TimingScore` | Backend/controllers/rideController.js:45-53 | Inclusive buckets on the absolute difference in milliseconds: ≤ 900000 gives 1, ≤ 1800000 gives 0.8, ≤ 3600000 gives 0.5, otherwise 0.2. A missing requested time gives 0.2 |
| `Matching.TimingNonIncreasing` | Backend/controllers/rideController.js:49-53 | A departure further from the requested time never gets a higher timing part |
| `Matching.PreferenceScore` | Backend/controllers/rideController.js:56-62 | Falsy preferences give 1. An object without keys gives `NaN`. Otherwise the result is the number of agreeing keys divided by the number of keys: it lies in [0,1], equals 1 exactly when every key agrees, and equals 0 exactly when none does |
| `Matching.MatchScore` | Backend/controllers/rideController.js:69 | The weighted score is undefined exactly for an empty preference object. Otherwise it lies in [0.28, 1.0], and in [0.48, 1.0] for falsy preferences |
| `Matching.PerfectScore` | Backend/controllers/rideController.js:69 | The score is 1.0 exactly when both endpoints match, the departure is within 15 minutes and every stated preference agrees |
| `Matching.LowestScore` | Backend/controllers/rideController.js:69 | For a keyed query, the score is 0.28 exactly when no endpoint matches, the departure is over an hour away or missing, and no preference agrees |
| `RideModel.PreferenceValue` | Backend/controllers/rideController.js:60 | The keys `music`, `smoking` and `petsAllowed` read the ride's own boolean for that preference, and any other key reads as undefined |
| `RideModel.WithDefaults` | Backend/models/Ride.js:19-23 | Each preference that is supplied is kept, and each one left out is false |
| `RideModel.Save` | Backend/models/Ride.js:10-13 | A ride is stored unchanged exactly when both endpoints are non-empty and at least one seat is free; otherwise the save fails with 500 |
| `StableSort.Sort` | Backend/controllers/rideController.js:103 | The sorted sequence holds exactly the input's elements, each as often as in the input |
| `StableSort.SortDescending` | Backend/controllers/rideController.js:103 | A comparator that puts `a` first exactly when `a`'s key is higher sorts highest key first |
| `StableSort.SortKeepsTies` | Backend/controllers/rideController.js:103 | Under such a comparator, the elements sharing a key keep their input order, as a stable sort promises |
| `StableSort.SortWithoutPrecedence` | Backend/controllers/rideController.js:103 | A comparator that never separates two elements returns the input unchanged |
| `Ranking.FindRides` | Backend/controllers/rideController.js:77-103 | Only an existing Rider may search (otherwise 403). The answer is the ranking of the candidates, each paired with its own score: best score first when scores are defined, and the store's order when the preference object is empty |
| `Ranking.RankIsPermutation` | Backend/controllers/rideController.js:97-100 | Each candidate, paired with its own score, appears in the ranking exactly as often as the store returned it |
| `Ranking.RankBestFirst` | Backend/controllers/rideController.js:102-103 | When scores are defined, they are non-increasing along the ranking |
| `Ranking.RankKeepsTies` | Backend/controllers/rideController.js:103 | Rides with equal scores keep the store's relative order |
| `Ranking.RankUndefinedKeepsOrder` | Backend/controllers/rideController.js:99-103 | With an empty preference object every score is `NaN`, and the ranking is the store's order unchanged |
| `RideRequests.CreateRide` | Backend/controllers/rideController.js:10-32 | A non-Driver gets 403. A missing or empty pickup or drop, a missing departure, or a missing or zero seat count gives 400. A negative seat count fails the save with 500. Otherwise the ride has exactly the supplied fields, the caller as driver, and no requests or passengers |
| `RideRequests.RequestToJoin` | Backend/controllers/rideController.js:117-141 | Checks run in order: Rider, ride exists, seats > 0, not already requested. Success appends the caller to `requests` and changes nothing else. On a valid ride, every Rider who has not yet requested succeeds. A failed save answers 500 "Server error" |
| `RideRequests.Without` | Backend/controllers/rideController.js:161 | Every occurrence of the rider is removed from the list, and every other entry keeps its count |
| `RideRequests.WithoutKeepsOrder` | Backend/controllers/rideController.js:161 | Filtering a concatenation is the concatenation of the filtered parts, so the requests that remain keep their order |
| `RideRequests.Respond` | Backend/controllers/rideController.js:153-174 | A non-owner or missing ride gives 404, and an unknown status gives 400. Approve appends the rider to `passengers`, takes one seat and drops the rider from `requests`; it succeeds exactly when at least two seats were free. Reject only drops the rider from `requests` |
| `RideRequests.ApprovalNotice` | Backend/controllers/rideController.js:164-165 | The approval text goes to the rider's phone and names the driver. A rider id without a user record gives a server error after the approval is already stored |
| `RideRequests.RunKeepsSeatAccount` | Backend/controllers/rideController.js:126-170 | Over any sequence of join, approve and reject calls, the ride stays valid and keeps its driver, route and departure. Free seats plus passengers stays constant |
| `RideRequests.LastSeatNeverTaken` | Backend/models/Ride.js:13 | A ride created with n seats never holds more than n - 1 passengers |
| `RideRequests.ApprovalUnchecked` | Backend/controllers/rideController.js:157-159 | The owner can approve any rider, including one who never requested or is already a passenger, whenever two seats are free |
| `RideRequests.PassengerMayRequestAgain` | Backend/controllers/rideController.js:131-136 | An approved passenger who is not in `requests` can request the same ride again |
| `RideRequests.RespondCorrected` | Backend/controllers/rideController.js:157-162 | With a seat check and a zero-seat minimum, approval succeeds exactly when a seat is free (otherwise 400). The stored seat count never goes below zero |
| `RideRequests.LastSeatTakenWhenCorrected` | Backend/models/Ride.js:13 | On a ride with one free seat, the handler as written fails the approval, while the corrected one takes the seat and leaves zero |
| `RideRequests.RunCorrectedKeepsSeatAccount` | Backend/models/Ride.js:13 | With the corrected approval, over any sequence of calls the seat count stays at zero or above. Free seats plus passengers is kept, so a ride never carries more passengers than it offered seats |
| `UserModel.FindBy` | Backend/controllers/authController.js:41 | A query on one field answers the first document holding the value, and nothing exactly when no document holds it |
| `UserModel.Lookup` | Backend/controllers/messageController.js:12 | Lookup by identifier finds a document exactly when one has that identifier, and then answers the first such document |
| `UserModel.PasswordOnSave` | Backend/models/User.js:34-39 | The save hook hashes the password only when it was changed, and an assignment of the stored value is not a change |
| `UserModel.ParseRole` | Backend/models/User.js:10-15 | The role enumeration accepts exactly `Driver` and `Rider`, case-sensitive |
| `UserModel.RoleNameRoundTrip` | Backend/models/User.js:13 | Every role's name is accepted back as that role |
| `UserModel.NewUser` | Backend/models/User.js:10-38 | A new user has the supplied fields and a hashed password. A missing role becomes `Rider`, both privacy flags are false, and there are no contacts and no picture |
| `UserModel.CastContacts` | Backend/models/User.js:24-29 | A contact list is stored exactly when every contact has a non-empty name and phone, and it is then stored in the same order |
| `Auth.EmailShapeCharacterized` | Backend/controllers/authController.js:19-22 | The email pattern holds exactly when there is no white space, a single `@` that is not first, and a `.` after it that is neither first nor last in the domain |
| `Auth.PhoneShape` | Backend/controllers/authController.js:30-33 | The phone pattern (plus sign, 1–3 digit code, 10 digits) holds exactly for a `+` followed by 11 to 13 ASCII digits |
| `Auth.Register` | Backend/controllers/authController.js:14-75 | The first failing check decides the error, in the order fields, email, password, phone, role, duplicate email. When every check passes but the phone is already stored, the unique index refuses the insert and the answer is a 500. Success needs every check to pass and the phone to be unused, and appends exactly the new user |
| `Auth.RegisterKeepsDirectoryValid` | Backend/models/User.js:6-9 | Registering with a fresh id keeps ids, emails and phones unique and the required fields present |
| `Auth.RegisteredUserCanLogIn` | Backend/controllers/authController.js:86-98 | After a successful registration, signing in with the same email and password answers the new user, given a password check that accepts every password against its own hash |
| `Auth.Login` | Backend/controllers/authController.js:86-98 | Every failure, whether an unknown email or a wrong password, gives the same 401 message. Success means the email exists and the password verifies |
| `Profiles.DisplayName` | Backend/controllers/userController.js:17 | A hidden name is its third character (if any) followed by `...`. Otherwise the full name is shown |
| `Profiles.HiddenNamesAlike` | Backend/controllers/userController.js:17 | Two hidden names display alike exactly when they share the third character, or are both shorter than three |
| `Profiles.DisplayPhone` | Backend/controllers/userController.js:19 | A phone shows as `+XX-XXXXXX` plus its last four characters (all of it if shorter). A missing or empty phone shows as empty |
| `Profiles.MaskedPhonesAlike` | Backend/controllers/userController.js:19 | Two masked phones display alike exactly when their last four characters agree |
| `Profiles.GetUserProfile` | Backend/controllers/userController.js:8-21 | An unknown user gives 404. Otherwise the profile has the user's id and email, the masked name and phone, and the picture or `blurred.jpg` |
| `Profiles.DisplayPicture` | Backend/controllers/userController.js:20 | A blurred picture shows the fixed placeholder whatever was stored, and an unblurred one shows the stored picture or none |
| `Profiles.UpdateUserProfile` | Backend/controllers/userController.js:33-51 | An unknown user gives 404. Name, email and password change only when a non-empty value is given. The password is re-hashed only when the value given differs from the stored one, and is kept as stored otherwise. Nothing else changes. Taking another user's email fails the save with 500 |
| `Profiles.UpdatePrivacySettings` | Backend/controllers/userController.js:57-71 | An unknown user gives 404. Otherwise each flag that is sent takes the sent value, and a flag left out keeps its stored value. Nothing else changes |
| `Profiles.AddEmergencyContacts` | Backend/controllers/userController.js:99-112 | An unknown user gives 404 and a non-Rider gets 403. A Rider's list is replaced element for element by the supplied one when every contact is complete, and an incomplete contact fails the save with 500. A missing list clears the stored one. Nothing else changes |
| `Profiles.ProfileUpdateKeepsDirectoryValid` | Backend/models/User.js:6-9 | A profile update never breaks the unique indexes on id, email and phone, or the required fields |
| `Profiles.PrivacyUpdateKeepsDirectoryValid` | Backend/models/User.js:6-9 | A privacy update never breaks the unique indexes or the required fields |
| `Profiles.ContactsUpdateKeepsDirectoryValid` | Backend/models/User.js:6-9 | Replacing the emergency contacts never breaks the unique indexes or the required fields |
| `Messaging.SendMessage` | Backend/controllers/messageController.js:8-26 | A missing receiver or text gives 400, an unknown receiver gives 404, and same roles give 403. A request passing all three checks succeeds, and success appends exactly one message from the caller with the given receiver and text |
| `Messaging.SendKeepsRiderDriverLinks` | Backend/controllers/messageController.js:17-20 | Every stored message links a Rider and a Driver, and no user messages themselves |
| `Messaging.Conversation` | Backend/controllers/messageController.js:36-41 | The conversation holds exactly the stored messages from either user to the other, and holds each of them as often as `Exchanged` does, the query result in store order |
| `Messaging.ConversationKeepsCounts` | Backend/controllers/messageController.js:36-40 | Each message between the two users appears in the conversation exactly as often as it is stored, and no other message appears |
| `Messaging.ConversationSymmetric` | Backend/controllers/messageController.js:36-40 | The conversation of a with b is identical to the conversation of b with a |
| `Messaging.ConversationOldestFirst` | Backend/controllers/messageController.js:41 | Conversation timestamps are non-decreasing |

## Left out

- Transport: the HTTP and socket servers, routing, the cookie and JWT
  middleware, and token issuing. The caller's identity and record are
  parameters. The socket path in `Backend/server.js` stores messages without
  the role check and is not modelled.
- Password hashing and comparison (bcrypt) are the function parameters
  `hash` and `verify`. Salt generation is not modelled.
- SMS delivery and masked calls are external effects. `ApprovalNotice`
  returns the message that would be sent. Its delivery, and location
  sharing to emergency contacts, are not modelled.
- The candidate query for the ride search is evaluated by the database. It
  uses user input as regular expressions, requires free seats, and requires
  a departure no earlier than the requested time. The candidate list is an
  input instead.
- Parsing: `JSON.parse` of the preferences, `Date` parsing, and casting
  request values to schema types are not modelled. Parsed values are inputs.
  A requested departure that is absent or empty is `None`. A non-empty
  departure that is not a date makes the candidate query fail, so the
  search answers 500; that case is not modelled. Non-string or
  non-numeric request values, and missing pickup or drop query parameters,
  are not modelled.
- Scores are exact reals, not IEEE-754 doubles. Lower-casing is ASCII only.
  String lengths count characters, not UTF-16 code units.
- Concurrent requests are not modelled, including two approvals racing on
  the same ride's seat count.
- Ties in the conversation's timestamp sort keep store order. The database
  does not promise any tie order.
- The text of a schema validation failure is not modelled. A failed ride
  save is reported as a 500 with a fixed message. A signed-in caller whose
  own record has disappeared is not modelled either; the handler would
  throw on it.
- `Auth.Register` reports a duplicate phone with a fixed message. That message is only the start of the database's real duplicate-key message.
- `Profiles.UpdatePrivacySettings`: a flag left out of the body is an `undefined` key. The model takes it that the update drops such a key, as current Mongoose versions do, so the stored flag stays. The Mongoose version is not part of this model; older versions could write a null instead.
- `Profiles.AddEmergencyContacts`: a missing list is read back as the empty list. The document is saved with the field unset, and the schema's array default supplies the empty list.
- `Messaging.SendMessage`: identifiers stand for well-formed ObjectId strings. A malformed one makes the database lookup throw. `sendMessage` has no error handler, so that error, or a failed save, is not answered with any of the modelled statuses. The handlers that do catch, `RequestToJoin` and `Respond`, answer a malformed ride or user identifier with 500 rather than 404.
- `RideRequests.CreateRide`: the presence checks are judged on the cast values, while the code judges the raw request values. So a departure sent as the number 0 is falsy in the code and gets 400, but the model accepts it. A seat count sent as the string `"0"` is truthy in the code, so the code goes on to the save, which fails the seat minimum with 500; the model answers 400.
- Login with a missing email or password is not modelled, because the
  fields are given as strings.
- The message schema file is not part of this model. A message is taken to
  hold the sender, receiver, text and a timestamp supplied at save time.

## Findings

| source | as written | input that shows it | evidently intended | confidence | as-written member | corrected member |
|---|---|---|---|---|---|---|
| Backend/controllers/rideController.js:157-162 with Backend/models/Ride.js:13 | Approval decrements the seat count without a check, and the schema refuses any ride with fewer than one seat. So approving the last free seat fails at save with a server error, and that seat can never be taken. | A valid ride with `availableSeats = 1`, approved by its driver for any rider | Approving the last seat succeeds and leaves zero seats. Approving on a full ride is refused. The count never goes negative. The zero-seat checks elsewhere only make sense if zero is reachable. | medium, not executed | `RideRequests.LastSeatNeverTaken` | `RideRequests.RespondCorrected`, `RideRequests.RunCorrectedKeepsSeatAccount` |

`RideRequests.LastSeatTakenWhenCorrected` shows both halves on the same
ride: the handler as written fails and the corrected one succeeds. Every
other member models the handlers as written, so the search and join checks
keep their behaviour.

=== FILE: auth.dfy ===
/** Registration and login. Registration checks its fields in a fixed order
    and the first failing check decides the answer; login answers every
    failure with the same message. Password hashing and comparison are
    parameters standing for the bcrypt calls. */
module Auth {
  import opened Replies
  import opened Text
  import opened UserModel

  /** A character the class `[^\s@]` accepts. */
  predicate Plain(c: char) {
    !IsSpace(c) && c != '@'
  }

  /** `/^[^\s@]+@[^\s@]+\.[^\s@]+$/`: three non-empty runs of plain characters
      joined by an `@` and a `.`. */
  predicate EmailShape(e: string) {
    exists at, dot :: 0 < at < |e| && at + 1 < dot < |e| - 1 && e[at] == '@' && e[dot] == '.'
      && (forall i :: 0 <= i < at ==> Plain(e[i]))
      && (forall i :: at < i < dot ==> Plain(e[i]))
      && (forall i :: dot < i < |e| ==> Plain(e[i]))
  }

  /** The email shape without the pattern: no white space, a single `@` that
      is not the first character, and after it a `.` that is neither the first
      nor the last character of the domain. */
  predicate SingleAtThenDot(e: string) {
    && (forall i :: 0 <= i < |e| ==> !IsSpace(e[i]))
    && exists at :: 0 < at < |e| && e[at] == '@'
         && (forall i :: 0 <= i < |e| && i != at ==> e[i] != '@')
         && exists dot :: at + 1 < dot < |e| - 1 && e[dot] == '.'
  }

  lemma ShapeHasSingleAt(e: string)
    requires EmailShape(e)
    ensures SingleAtThenDot(e)
  {
    var at, dot :| 0 < at < |e| && at + 1 < dot < |e| - 1 && e[at] == '@' && e[dot] == '.'
      && (forall i :: 0 <= i < at ==> Plain(e[i]))
      && (forall i :: at < i < dot ==> Plain(e[i]))
      && (forall i :: dot < i < |e| ==> Plain(e[i]));
    forall i | 0 <= i < |e| && i != at ensures Plain(e[i]) {
      if i == dot {
        assert e[i] == '.';
      }
    }
  }

  lemma SingleAtHasShape(e: string)
    requires SingleAtThenDot(e)
    ensures EmailShape(e)
  {
    var at :| 0 < at < |e| && e[at] == '@'
          && (forall i :: 0 <= i < |e| && i != at ==> e[i] != '@')
          && exists dot :: at + 1 < dot < |e| - 1 && e[dot] == '.';
    var dot :| at + 1 < dot < |e| - 1 && e[dot] == '.';
    assert forall i :: 0 <= i < |e| && i != at ==> Plain(e[i]);
  }

  /** The pattern accepts exactly the addresses with that shape. */
  lemma EmailShapeCharacterized(e: string)
    ensures EmailShape(e) <==> SingleAtThenDot(e)
  {
    if EmailShape(e) {
      ShapeHasSingleAt(e);
    }
    if SingleAtThenDot(e) {
      SingleAtHasShape(e);
    }
  }

  predicate DigitsBetween(p: string, lo: nat, hi: nat)
    requires lo <= hi <= |p|
  {
    forall i :: lo <= i < hi ==> IsDigit(p[i])
  }

  /** After the plus sign, a country code of `cc` digits and then ten digits. */
  predicate CodeThenTenDigits(p: string, cc: nat) {
    |p| == 1 + cc + 10 && DigitsBetween(p, 1, 1 + cc) && DigitsBetween(p, 1 + cc, |p|)
  }

  /** `/^\+\d{1,3}\d{10}$/`: a plus sign, a one- to three-digit country code
      and ten digits, which is a plus sign followed by 11 to 13 digits. */
  function PhoneShape(p: string): (ok: bool)
    ensures ok <==> 12 <= |p| <= 14 && p[0] == '+' && forall i :: 1 <= i < |p| ==> IsDigit(p[i])
  {
    |p| > 0 && p[0] == '+'
    && (CodeThenTenDigits(p, 1) || CodeThenTenDigits(p, 2) || CodeThenTenDigits(p, 3))
  }

  const MinPasswordLength: nat := 6

  /** The registration body; any field may be missing. */
  datatype Registration = Registration(
    name: Option<string>,
    email: Option<string>,
    password: Option<string>,
    phone: Option<string>,
    role: Option<string>)

  predicate AllGiven(f: Registration) {
    Truthy(f.name) && Truthy(f.email) && Truthy(f.password) && Truthy(f.phone) && Truthy(f.role)
  }

  const FieldsRequired := Error(BadRequest, "All fields are required")
  const InvalidEmail := Error(BadRequest, "Invalid email format")
  const ShortPassword := Error(BadRequest, "Password must be at least 6 characters long")
  const InvalidPhone := Error(BadRequest, "Invalid phone number. Format: +[country code][10-digit number] (e.g., +919876543210)")
  const InvalidRole := Error(BadRequest, "Invalid role. Choose either Driver or Rider")
  const EmailTaken := Error(BadRequest, "User with this email already exists")
  /** The unique index on `phone` refuses the insert; the handler reports the
      driver's error as a server error. */
  const DuplicateKey := Error(ServerError, "E11000 duplicate key error")

  predicate PhoneTaken(users: seq<User>, phone: string) {
    exists i :: 0 <= i < |users| && users[i].phone == Some(phone)
  }

  /** `registerUser`: the new directory, with the user appended, or the first
      check that failed. */
  function Register(users: seq<User>, f: Registration, newId: Id, hash: string -> string): (r: Result<seq<User>>)
    ensures !AllGiven(f) ==> r == Err(FieldsRequired)
    ensures AllGiven(f) && !EmailShape(f.email.value) ==> r == Err(InvalidEmail)
    ensures (AllGiven(f) && EmailShape(f.email.value) && |f.password.value| < MinPasswordLength)
            ==> r == Err(ShortPassword)
    ensures (AllGiven(f) && EmailShape(f.email.value) && |f.password.value| >= MinPasswordLength
             && !PhoneShape(f.phone.value)) ==> r == Err(InvalidPhone)
    ensures (AllGiven(f) && EmailShape(f.email.value) && |f.password.value| >= MinPasswordLength
             && PhoneShape(f.phone.value) && ParseRole(f.role.value).None?) ==> r == Err(InvalidRole)
    ensures (AllGiven(f) && EmailShape(f.email.value) && |f.password.value| >= MinPasswordLength
             && PhoneShape(f.phone.value) && ParseRole(f.role.value).Some?
             && FindByEmail(users, f.email.value).Some?) ==> r == Err(EmailTaken)
    ensures (AllGiven(f) && EmailShape(f.email.value) && |f.password.value| >= MinPasswordLength
             && PhoneShape(f.phone.value) && ParseRole(f.role.value).Some?
             && FindByEmail(users, f.email.value).None? && PhoneTaken(users, f.phone.value))
            ==> r == Err(DuplicateKey) && r.error.status == ServerError
    ensures r.Ok? <==> (AllGiven(f) && EmailShape(f.email.value) && |f.password.value| >= MinPasswordLength
                        && PhoneShape(f.phone.value) && ParseRole(f.role.value).Some?
                        && FindByEmail(users, f.email.value).None? && !PhoneTaken(users, f.phone.value))
    ensures r.Ok? ==> r.value == users + [NewUser(newId, f.name.value, f.email.value, f.password.value,
                                                  f.phone.value, ParseRole(f.role.value), hash)]
  {
    if !AllGiven(f) then Err(FieldsRequired)
    else if !EmailShape(f.email.value) then Err(InvalidEmail)
    else if |f.password.value| < MinPasswordLength then Err(ShortPassword)
    else if !PhoneShape(f.phone.value) then Err(InvalidPhone)
    else if ParseRole(f.role.value).None? then Err(InvalidRole)
    else if FindByEmail(users, f.email.value).Some? then Err(EmailTaken)
    else if PhoneTaken(users, f.phone.value) then Err(DuplicateKey)
    else Ok(users + [NewUser(newId, f.name.value, f.email.value, f.password.value,
                             f.phone.value, ParseRole(f.role.value), hash)])
  }

  /** Registration keeps the collection's unique indexes and required fields,
      provided the store hands out a fresh identifier. */
  lemma RegisterKeepsDirectoryValid(users: seq<User>, f: Registration, newId: Id, hash: string -> string)
    requires ValidDirectory(users)
    requires Find(users, newId).None?
    ensures Register(users, f, newId, hash).Ok? ==> ValidDirectory(Register(users, f, newId, hash).value)
  {
  }

  const BadCredentials := Error(Unauthorized, "Invalid email or password")

  /** After a successful registration, signing in with the same email and
      password succeeds, given a password check that accepts a password
      against its own hash. */
  lemma {:induction false} RegisteredUserCanLogIn(users: seq<User>, f: Registration, newId: Id,
                                                  hash: string -> string, verify: (string, string) -> bool)
    requires Register(users, f, newId, hash).Ok?
    requires forall s :: verify(s, hash(s))
    ensures var after := Register(users, f, newId, hash).value;
            var r := Login(after, f.email.value, f.password.value, verify);
            r.Ok? && r.value.id == newId
  {
    var after := Register(users, f, newId, hash).value;
    var k := FindByEmail(after, f.email.value);
    assert after[|users|].email == f.email.value;
    assert k.Some? && k.value == |users| by {
      assert forall j :: 0 <= j < |users| ==> after[j] == users[j];
    }
  }

  /** `loginUser`: `verify(password, stored)` stands for the bcrypt compare.
      An unknown email and a wrong password get the same answer. */
  function Login(users: seq<User>, email: string, password: string, verify: (string, string) -> bool): (r: Result<User>)
    ensures r.Err? ==> r.error == BadCredentials
    ensures r.Ok? <==> FindByEmail(users, email).Some? && verify(password, users[FindByEmail(users, email).value].password)
    ensures r.Ok? ==> r.value.email == email && r.value in users
  {
    match FindByEmail(users, email)
    case None => Err(BadCredentials)
    case Some(i) => if verify(password, users[i].password) then Ok(users[i]) else Err(BadCredentials)
  }
}

=== FILE: matching.dfy ===
/** The score a search gives one ride: a weighted sum of a location part, a
    timing part and a preference part. Scores are exact reals; a score that the
    backend computes as `NaN` is `None`. */
module Matching {
  import opened Replies
  import opened Text
  import opened RideModel

  /** A value of the rider's parsed preference object. Only a boolean can be
      strictly equal to a ride's preference. */
  datatype PrefValue = Flag(b: bool) | NotBoolean

  /** The parsed `preferences` query parameter: a falsy value (`null`, `false`,
      `0`, `""`) or an object with its own keys. A search that sends no
      `preferences` parses `'{}'`, so it is `Keyed(map[])`, not
      `NoPreferences`: every score is then undefined and the results keep the
      store's order. */
  datatype PrefQuery = NoPreferences | Keyed(entries: map<string, PrefValue>)

  /** What a rider searches with. A requested departure that is absent or
      empty is `None`; a non-empty one is already a date here. */
  datatype Criteria = Criteria(pickup: string, drop: string, departure: Option<int>, preferences: PrefQuery)

  const MillisPerMinute: int := 1000 * 60

  function Abs(x: int): nat {
    if x < 0 then -x else x
  }

  function EndpointScore(requested: string, offered: string): real {
    if SameIgnoringCase(requested, offered) then 0.5 else 0.25
  }

  /** Half a point per endpoint that matches ignoring case, a quarter
      otherwise. */
  function LocationScore(c: Criteria, ride: Ride): (r: real)
    ensures r == 0.5 || r == 0.75 || r == 1.0
    ensures r == 1.0 <==> SameIgnoringCase(c.pickup, ride.pickupLocation) && SameIgnoringCase(c.drop, ride.dropLocation)
    ensures r == 0.5 <==> !SameIgnoringCase(c.pickup, ride.pickupLocation) && !SameIgnoringCase(c.drop, ride.dropLocation)
  {
    EndpointScore(c.pickup, ride.pickupLocation) + EndpointScore(c.drop, ride.dropLocation)
  }

  /** The timing bucket of the absolute difference in minutes. A missing
      requested time makes the difference `NaN`, every comparison fails, and
      the last bucket applies. */
  function TimingScore(requested: Option<int>, offered: int): (r: real)
    ensures requested.None? ==> r == 0.2
    ensures requested.Some? ==>
              var d := Abs(requested.value - offered);
              && (r == 1.0 <==> d <= 900000)
              && (r == 0.8 <==> 900000 < d <= 1800000)
              && (r == 0.5 <==> 1800000 < d <= 3600000)
              && (r == 0.2 <==> 3600000 < d)
  {
    match requested
    case None => 0.2
    case Some(t) =>
      var minutes := Abs(t - offered) as real / MillisPerMinute as real;
      if minutes <= 15.0 then 1.0
      else if minutes <= 30.0 then 0.8
      else if minutes <= 60.0 then 0.5
      else 0.2
  }

  /** A departure further away never scores better. */
  lemma TimingNonIncreasing(t: int, a: int, b: int)
    requires Abs(t - a) <= Abs(t - b)
    ensures TimingScore(Some(t), a) >= TimingScore(Some(t), b)
  {
  }

  predicate Agrees(v: PrefValue, p: Preferences, key: string) {
    v.Flag? && PreferenceValue(p, key) == Some(v.b)
  }

  /** The rider's keys whose value strictly equals the ride's. */
  function AgreeingKeys(m: map<string, PrefValue>, p: Preferences): (r: set<string>)
    ensures r <= m.Keys
    ensures forall k :: k in r <==> k in m && Agrees(m[k], p, k)
  {
    set k | k in m.Keys && Agrees(m[k], p, k)
  }

  lemma {:induction false} SubsetCardinality<K>(a: set<K>, b: set<K>)
    requires a <= b
    ensures |a| <= |b|
    ensures |a| == |b| ==> a == b
    decreases |b|
  {
    if b != {} {
      var x :| x in b;
      SubsetCardinality(a - {x}, b - {x});
      if x in a {
        assert |a - {x}| == |a| - 1;
        if |a| == |b| {
          assert a == (a - {x}) + {x};
          assert b == (b - {x}) + {x};
        }
      } else {
        assert a - {x} == a;
      }
    } else {
      assert a == {};
    }
  }

  /** `n / d` for a count `n` of at most `d` keys. */
  function Fraction(n: nat, d: nat): (r: real)
    requires 0 < d && n <= d
    ensures r * (d as real) == n as real
    ensures 0.0 <= r <= 1.0
    ensures r == 1.0 <==> n == d
    ensures r == 0.0 <==> n == 0
  {
    n as real / d as real
  }

  /** The fraction of the rider's keys the ride agrees with. A falsy query
      scores 1; an object without keys divides zero by zero. */
  function PreferenceScore(q: PrefQuery, p: Preferences): (r: Option<real>)
    ensures r.None? <==> q == Keyed(map[])
    ensures q.NoPreferences? ==> r == Some(1.0)
    ensures r.Some? ==> 0.0 <= r.value <= 1.0
    ensures q.Keyed? && r.Some? ==>
              (r.value == 1.0 <==> forall k :: k in q.entries ==> Agrees(q.entries[k], p, k))
    ensures q.Keyed? && r.Some? ==>
              (r.value == 0.0 <==> forall k :: k in q.entries ==> !Agrees(q.entries[k], p, k))
    ensures q.Keyed? && r.Some? ==> r.value * (|q.entries| as real) == |AgreeingKeys(q.entries, p)| as real
  {
    match q
    case NoPreferences => Some(1.0)
    case Keyed(m) =>
      var agreeing := AgreeingKeys(m, p);
      SubsetCardinality(agreeing, m.Keys);
      if |m| == 0 then
        assert m == map[];
        None
      else
        assert |m.Keys| == |m|;
        assert (forall k :: k in m ==> Agrees(m[k], p, k)) <==> agreeing == m.Keys;
        assert (forall k :: k in m ==> !Agrees(m[k], p, k)) <==> agreeing == {};
        Some(Fraction(|agreeing|, |m|))
  }

  /** `0.4 * location + 0.4 * timing + 0.2 * preference`. */
  function MatchScore(c: Criteria, ride: Ride): (r: Option<real>)
    ensures r.None? <==> c.preferences == Keyed(map[])
    ensures r.Some? ==> 0.28 <= r.value <= 1.0
    ensures c.preferences.NoPreferences? ==> r.Some? && 0.48 <= r.value
  {
    match PreferenceScore(c.preferences, ride.preferences)
    case None => None
    case Some(p) =>
      Some(0.4 * LocationScore(c, ride) + 0.4 * TimingScore(c.departure, ride.departureTime) + 0.2 * p)
  }

  /** Every preference the rider states agrees with the ride (vacuously so for
      a falsy query). */
  predicate AllAgree(q: PrefQuery, p: Preferences) {
    q.Keyed? ==> forall k :: k in q.entries ==> Agrees(q.entries[k], p, k)
  }

  /** A perfect score needs both endpoints, a departure within fifteen minutes
      and every stated preference, and they suffice. */
  lemma PerfectScore(c: Criteria, ride: Ride)
    requires c.preferences != Keyed(map[])
    ensures MatchScore(c, ride) == Some(1.0) <==>
              && SameIgnoringCase(c.pickup, ride.pickupLocation)
              && SameIgnoringCase(c.drop, ride.dropLocation)
              && c.departure.Some? && Abs(c.departure.value - ride.departureTime) <= 900000
              && AllAgree(c.preferences, ride.preferences)
  {
    var l := LocationScore(c, ride);
    var t := TimingScore(c.departure, ride.departureTime);
    var p := PreferenceScore(c.preferences, ride.preferences).value;
    assert l <= 1.0 && t <= 1.0 && p <= 1.0;
  }

  /** The lowest score a keyed query can give is 0.28, reached exactly when
      neither endpoint matches, the departure is over an hour away (or not
      given) and no stated preference agrees. */
  lemma LowestScore(c: Criteria, ride: Ride)
    requires c.preferences.Keyed? && c.preferences.entries != map[]
    ensures MatchScore(c, ride) == Some(0.28) <==>
              && !SameIgnoringCase(c.pickup, ride.pickupLocation)
              && !SameIgnoringCase(c.drop, ride.dropLocation)
              && (c.departure.Some? ==> Abs(c.departure.value - ride.departureTime) > 3600000)
              && forall k :: k in c.preferences.entries ==> !Agrees(c.preferences.entries[k], ride.preferences, k)
  {
    var l := LocationScore(c, ride);
    var t := TimingScore(c.departure, ride.departureTime);
    var p := PreferenceScore(c.preferences, ride.preferences).value;
    assert l >= 0.5 && t >= 0.2 && p >= 0.0;
  }
}

=== FILE: messaging.dfy ===
/** Private messages between a Rider and a Driver, and the conversation
    between two users read back in time order. */
module Messaging {
  import opened Replies
  import opened Text
  import opened UserModel
  import StableSort

  /** A stored message; `timestamp` is the milliseconds at which it was saved. */
  datatype Message = Message(sender: Id, receiver: Id, text: string, timestamp: int)

  const ReceiverAndMessageRequired := Error(BadRequest, "Receiver and message are required")
  const ReceiverNotFound := Error(NotFound, "Receiver not found")
  const RiderDriverOnly := Error(Forbidden, "Forbidden: Messages can only be exchanged between a Rider and a Driver")

  /** `sendMessage` from the signed-in `caller`: the message store after the
      message is saved at time `now`. */
  function SendMessage(caller: User, receiver: Option<Id>, text: Option<string>, users: seq<User>,
                       store: seq<Message>, now: int): (r: Result<seq<Message>>)
    ensures !Truthy(receiver) || !Truthy(text) ==> r == Err(ReceiverAndMessageRequired)
    ensures Truthy(receiver) && Truthy(text) && Lookup(users, receiver.value).None? ==> r == Err(ReceiverNotFound)
    ensures (Truthy(receiver) && Truthy(text) && Lookup(users, receiver.value).Some?
             && Lookup(users, receiver.value).value.role == caller.role) ==> r == Err(RiderDriverOnly)
    ensures r.Ok? <==> Truthy(receiver) && Truthy(text) && Lookup(users, receiver.value).Some?
                       && Lookup(users, receiver.value).value.role != caller.role
    ensures r.Ok? ==> r.value == store + [Message(caller.id, receiver.value, text.value, now)]
  {
    if !Truthy(receiver) || !Truthy(text) then Err(ReceiverAndMessageRequired)
    else match Lookup(users, receiver.value)
      case None => Err(ReceiverNotFound)
      case Some(target) =>
        if caller.role == target.role then Err(RiderDriverOnly)
        else Ok(store + [Message(caller.id, receiver.value, text.value, now)])
  }

  /** Both ends of the message are users, one a Rider and the other a Driver. */
  predicate LinksRiderAndDriver(m: Message, users: seq<User>) {
    Lookup(users, m.sender).Some? && Lookup(users, m.receiver).Some?
    && Lookup(users, m.sender).value.role != Lookup(users, m.receiver).value.role
  }

  /** Sending keeps every stored message between a Rider and a Driver, and
      so no one ever messages themselves. */
  lemma {:induction false} SendKeepsRiderDriverLinks(caller: User, receiver: Option<Id>, text: Option<string>,
                                                     users: seq<User>, store: seq<Message>, now: int)
    requires UniqueKeys(users) && caller in users
    requires forall m :: m in store ==> LinksRiderAndDriver(m, users)
    ensures var r := SendMessage(caller, receiver, text, users, store, now);
            r.Ok? ==> forall m :: m in r.value ==> LinksRiderAndDriver(m, users) && m.sender != m.receiver
  {
    var r := SendMessage(caller, receiver, text, users, store, now);
    if r.Ok? {
      var k :| 0 <= k < |users| && users[k] == caller;
      var found := Find(users, caller.id);
      assert found.Some?;
      assert found.value == k;
      assert Lookup(users, caller.id) == Some(caller);
    }
  }

  /** The query `{sender: a, receiver: b}` or `{sender: b, receiver: a}`. */
  predicate Between(m: Message, a: Id, b: Id) {
    (m.sender == a && m.receiver == b) || (m.sender == b && m.receiver == a)
  }

  /** The messages of the store the query matches, each as often as it is
      stored, in store order. */
  function Exchanged(store: seq<Message>, a: Id, b: Id): (r: seq<Message>)
    ensures forall m :: m in r <==> m in store && Between(m, a, b)
    ensures |r| <= |store|
  {
    if |store| == 0 then []
    else (if Between(store[0], a, b) then [store[0]] else []) + Exchanged(store[1..], a, b)
  }

  /** `sort({ timestamp: 1 })` puts `a` ahead of `b` when it is older. Ties
      keep store order. */
  predicate Older(a: Message, b: Message) {
    a.timestamp < b.timestamp
  }

  function Recency(m: Message): real {
    -(m.timestamp as real)
  }

  /** `getMessages`: the conversation between the signed-in user and another. */
  function Conversation(store: seq<Message>, me: Id, other: Id): (r: seq<Message>)
    ensures multiset(r) == multiset(Exchanged(store, me, other))
    ensures forall m :: m in r <==> m in store && Between(m, me, other)
  {
    var r := StableSort.Sort(Exchanged(store, me, other), Older);
    assert forall m :: m in r <==> m in multiset(Exchanged(store, me, other));
    r
  }

  lemma {:induction false} ExchangedCounts(store: seq<Message>, a: Id, b: Id, m: Message)
    ensures multiset(Exchanged(store, a, b))[m] == if Between(m, a, b) then multiset(store)[m] else 0
  {
    if |store| > 0 {
      ExchangedCounts(store[1..], a, b, m);
      assert store == [store[0]] + store[1..];
    }
  }

  /** Every message of the conversation is there as often as it is stored. */
  lemma ConversationKeepsCounts(store: seq<Message>, me: Id, other: Id, m: Message)
    ensures multiset(Conversation(store, me, other))[m] == if Between(m, me, other) then multiset(store)[m] else 0
  {
    ExchangedCounts(store, me, other, m);
  }

  /** Who asks does not matter: both users read the same conversation. */
  lemma {:induction false} ConversationSymmetric(store: seq<Message>, a: Id, b: Id)
    ensures Conversation(store, a, b) == Conversation(store, b, a)
  {
    ExchangedSymmetric(store, a, b);
  }

  lemma {:induction false} ExchangedSymmetric(store: seq<Message>, a: Id, b: Id)
    ensures Exchanged(store, a, b) == Exchanged(store, b, a)
  {
    if |store| > 0 {
      ExchangedSymmetric(store[1..], a, b);
    }
  }

  /** The conversation comes back oldest first. */
  lemma ConversationOldestFirst(store: seq<Message>, me: Id, other: Id)
    ensures forall i, j :: 0 <= i < j < |Conversation(store, me, other)| ==>
              Conversation(store, me, other)[i].timestamp <= Conversation(store, me, other)[j].timestamp
  {
    var ex := Exchanged(store, me, other);
    assert StableSort.OrdersByKey(ex, Older, Recency);
    StableSort.SortDescending(ex, Older, Recency);
  }
}

=== FILE: profiles.dfy ===
/** The signed-in user's own profile: what is shown of it under the privacy
    settings, and the three updates a user can make to their record. */
module Profiles {
  import opened Replies
  import opened Text
  import opened UserModel

  /** What `getUserProfile` answers with; the password is never part of it. */
  datatype Profile = Profile(id: Id, name: string, email: string, phone: string, profilePicture: Option<string>)

  const Ellipsis := "..."
  const PhoneMask := "+XX-XXXXXX"
  const BlurredPicture := "blurred.jpg"

  const UserNotFound := Error(NotFound, "User not found")
  const OnlyRidersContacts := Error(Forbidden, "Only Riders can share location")
  const SaveFailed := Error(ServerError, "Server error")

  /** A hidden name shows only its third character, then an ellipsis. */
  function DisplayName(name: string, hidden: bool): (r: string)
    ensures !hidden ==> r == name
    ensures hidden ==> |r| == |CharAt(name, 2)| + 3 && r[(|r| - 3)..] == Ellipsis
    ensures hidden && |name| > 2 ==> r[0] == name[2]
    ensures hidden && |name| <= 2 ==> r == Ellipsis
  {
    if hidden then CharAt(name, 2) + Ellipsis else name
  }

  /** Two hidden names look alike exactly when they share the third character
      or are both too short to have one. */
  lemma HiddenNamesAlike(a: string, b: string)
    ensures DisplayName(a, true) == DisplayName(b, true) <==>
              (|a| > 2 && |b| > 2 && a[2] == b[2]) || (|a| <= 2 && |b| <= 2)
  {
    if DisplayName(a, true) == DisplayName(b, true) && |a| > 2 {
      assert DisplayName(a, true)[0] == a[2];
    }
  }

  /** A phone is shown as a fixed mask followed by its last four characters;
      a missing or empty phone is shown as the empty string. */
  function DisplayPhone(phone: Option<string>): (r: string)
    ensures !Truthy(phone) ==> r == ""
    ensures Truthy(phone) ==> |r| >= |PhoneMask| && r[..|PhoneMask|] == PhoneMask
                              && r[|PhoneMask|..] == LastChars(phone.value, 4)
  {
    if Truthy(phone) then PhoneMask + LastChars(phone.value, 4) else ""
  }

  /** Two masked phones look alike exactly when their last four characters
      agree. */
  lemma MaskedPhonesAlike(a: string, b: string)
    requires a != "" && b != ""
    ensures DisplayPhone(Some(a)) == DisplayPhone(Some(b)) <==> LastChars(a, 4) == LastChars(b, 4)
  {
    var da, db := DisplayPhone(Some(a)), DisplayPhone(Some(b));
    if da == db {
      assert da[|PhoneMask|..] == db[|PhoneMask|..];
    }
  }

  /** A blurred picture is replaced by the fixed placeholder, whatever was
      stored; otherwise the stored picture, if any, is shown. */
  function DisplayPicture(stored: Option<string>, blur: bool): (r: Option<string>)
    ensures blur ==> r == Some(BlurredPicture)
    ensures !blur ==> r == stored
  {
    if blur then Some(BlurredPicture) else stored
  }

  /** `getUserProfile` for the signed-in user's identifier. */
  function GetUserProfile(users: seq<User>, callerId: Id): (r: Result<Profile>)
    ensures r.Err? <==> Find(users, callerId).None?
    ensures r.Err? ==> r.error == UserNotFound
    ensures r.Ok? ==> var u := users[Find(users, callerId).value];
                      && r.value.id == callerId && r.value.email == u.email
                      && r.value.name == DisplayName(u.name, u.privacy.hideFullName)
                      && r.value.phone == DisplayPhone(u.phone)
                      && (u.privacy.blurProfilePicture ==> r.value.profilePicture == Some(BlurredPicture))
                      && (!u.privacy.blurProfilePicture ==> r.value.profilePicture == u.profilePicture)
  {
    match Find(users, callerId)
    case None => Err(UserNotFound)
    case Some(i) =>
      var u := users[i];
      Ok(Profile(u.id, DisplayName(u.name, u.privacy.hideFullName), u.email, DisplayPhone(u.phone),
                 DisplayPicture(u.profilePicture, u.privacy.blurProfilePicture)))
  }

  predicate EmailHeldByOther(users: seq<User>, i: nat, email: string) {
    exists j :: 0 <= j < |users| && j != i && users[j].email == email
  }

  /** `updateUserProfile`: each of name, email and password is replaced only
      when a non-empty value is supplied; a replaced password is hashed when
      saved. Taking another user's email breaks the unique index and nothing
      is saved; an email that did not change is not written. */
  function UpdateUserProfile(users: seq<User>, callerId: Id, name: Option<string>, email: Option<string>,
                             password: Option<string>, hash: string -> string): (r: Result<seq<User>>)
    ensures Find(users, callerId).None? ==> r == Err(UserNotFound)
    ensures r.Err? ==> r.error.status == NotFound || r.error == SaveFailed
    ensures Find(users, callerId).Some? && r.Err? ==> r == Err(SaveFailed)
    ensures r.Ok? ==> |r.value| == |users|
    ensures r.Ok? ==>
              var i := Find(users, callerId).value;
              var u := users[i];
              var v := r.value[i];
              && (forall j :: 0 <= j < |users| && j != i ==> r.value[j] == users[j])
              && v.(name := u.name, email := u.email, password := u.password) == u
              && v.name == (if Truthy(name) then name.value else u.name)
              && v.email == (if Truthy(email) then email.value else u.email)
              && (!Truthy(password) ==> v.password == u.password)
              && (Truthy(password) && password.value != u.password ==> v.password == hash(password.value))
              && (Truthy(password) && password.value == u.password ==> v.password == u.password)
    ensures r.Ok? <==> Find(users, callerId).Some?
                       && !(Truthy(email) && email.value != users[Find(users, callerId).value].email
                            && EmailHeldByOther(users, Find(users, callerId).value, email.value))
  {
    match Find(users, callerId)
    case None => Err(UserNotFound)
    case Some(i) =>
      var u := users[i];
      var v := u.(name := if Truthy(name) then name.value else u.name,
                  email := if Truthy(email) then email.value else u.email,
                  password := if Truthy(password) then PasswordOnSave(u.password, password.value, hash)
                              else u.password);
      if v.email != u.email && EmailHeldByOther(users, i, v.email) then Err(SaveFailed)
      else Ok(users[i := v])
  }

  /** `updatePrivacySettings`: each flag the client sends takes the sent
      value; a flag left out of the body is an `undefined` key, which the
      update drops, so that flag keeps its stored value. Nothing else
      changes. */
  function UpdatePrivacySettings(users: seq<User>, callerId: Id, hideFullName: Option<bool>,
                                 blurProfilePicture: Option<bool>): (r: Result<seq<User>>)
    ensures r.Err? <==> Find(users, callerId).None?
    ensures r.Err? ==> r.error == UserNotFound
    ensures r.Ok? ==>
              var i := Find(users, callerId).value;
              && |r.value| == |users|
              && (forall j :: 0 <= j < |users| && j != i ==> r.value[j] == users[j])
              && (hideFullName.Some? ==> r.value[i].privacy.hideFullName == hideFullName.value)
              && (hideFullName.None? ==> r.value[i].privacy.hideFullName == users[i].privacy.hideFullName)
              && (blurProfilePicture.Some? ==> r.value[i].privacy.blurProfilePicture == blurProfilePicture.value)
              && (blurProfilePicture.None? ==>
                    r.value[i].privacy.blurProfilePicture == users[i].privacy.blurProfilePicture)
              && r.value[i].(privacy := users[i].privacy) == users[i]
  {
    match Find(users, callerId)
    case None => Err(UserNotFound)
    case Some(i) =>
      var was := users[i].privacy;
      Ok(users[i := users[i].(privacy := Privacy(hideFullName.GetOr(was.hideFullName),
                                                 blurProfilePicture.GetOr(was.blurProfilePicture)))])
  }

  /** `addEmergencyContacts`: a Rider's list is replaced by the supplied one,
      provided every supplied contact has a name and a phone. A body without
      `contacts` assigns `undefined`, which clears the stored list. */
  function AddEmergencyContacts(users: seq<User>, callerId: Id, contacts: Option<seq<ContactInput>>)
    : (r: Result<seq<User>>)
    ensures Find(users, callerId).None? ==> r == Err(UserNotFound)
    ensures Find(users, callerId).Some? && users[Find(users, callerId).value].role != Rider
            ==> r == Err(OnlyRidersContacts)
    ensures r.Ok? <==> Find(users, callerId).Some? && users[Find(users, callerId).value].role == Rider
                       && (contacts.Some? ==> CastContacts(contacts.value).Ok?)
    ensures r.Err? ==> r.error in {UserNotFound, OnlyRidersContacts, SaveFailed}
    ensures Find(users, callerId).Some? && users[Find(users, callerId).value].role == Rider
            && contacts.Some? && CastContacts(contacts.value).Err?
            ==> r == Err(SaveFailed)
    ensures r.Ok? ==>
              var i := Find(users, callerId).value;
              && |r.value| == |users|
              && (forall j :: 0 <= j < |users| && j != i ==> r.value[j] == users[j])
              && (contacts.None? ==> r.value[i].emergencyContacts == [])
              && (contacts.Some? ==> |r.value[i].emergencyContacts| == |contacts.value|)
              && (contacts.Some? ==> forall k :: 0 <= k < |contacts.value| ==>
                    r.value[i].emergencyContacts[k] == Contact(contacts.value[k].name.value, contacts.value[k].phone.value))
              && r.value[i].(emergencyContacts := users[i].emergencyContacts) == users[i]
  {
    match Find(users, callerId)
    case None => Err(UserNotFound)
    case Some(i) =>
      if users[i].role != Rider then Err(OnlyRidersContacts)
      else if contacts.None? then Ok(users[i := users[i].(emergencyContacts := [])])
      else match CastContacts(contacts.value)
        case Err(_) => Err(SaveFailed)
        case Ok(cs) => Ok(users[i := users[i].(emergencyContacts := cs)])
  }

  /** Replacing one record by one with the same identifier and phone, and an
      email no other record holds, keeps the collection valid. */
  lemma ReplaceKeepsDirectoryValid(users: seq<User>, i: nat, v: User)
    requires ValidDirectory(users) && i < |users|
    requires WellFormed(v) && v.id == users[i].id && v.phone == users[i].phone
    requires forall j :: 0 <= j < |users| && j != i ==> users[j].email != v.email
    ensures ValidDirectory(users[i := v])
  {
    var w := users[i := v];
    forall a, b | 0 <= a < b < |w|
      ensures w[a].id != w[b].id && w[a].email != w[b].email && w[a].phone != w[b].phone
    {
      if a != i && b != i {
        assert w[a] == users[a] && w[b] == users[b];
      }
    }
  }

  /** A profile update cannot break the collection's unique indexes or
      required fields. */
  lemma ProfileUpdateKeepsDirectoryValid(users: seq<User>, callerId: Id, name: Option<string>,
                                         email: Option<string>, password: Option<string>, hash: string -> string)
    requires ValidDirectory(users)
    ensures var r := UpdateUserProfile(users, callerId, name, email, password, hash);
            r.Ok? ==> ValidDirectory(r.value)
  {
    var r := UpdateUserProfile(users, callerId, name, email, password, hash);
    if r.Ok? {
      var i := Find(users, callerId).value;
      ReplaceKeepsDirectoryValid(users, i, r.value[i]);
      assert r.value == users[i := r.value[i]];
    }
  }

  /** Neither can a privacy update. */
  lemma PrivacyUpdateKeepsDirectoryValid(users: seq<User>, callerId: Id, hidden: Option<bool>, blur: Option<bool>)
    requires ValidDirectory(users)
    ensures var r := UpdatePrivacySettings(users, callerId, hidden, blur);
            r.Ok? ==> ValidDirectory(r.value)
  {
    var r := UpdatePrivacySettings(users, callerId, hidden, blur);
    if r.Ok? {
      var i := Find(users, callerId).value;
      ReplaceKeepsDirectoryValid(users, i, r.value[i]);
      assert r.value == users[i := r.value[i]];
    }
  }

  /** Nor can replacing the emergency contacts. */
  lemma ContactsUpdateKeepsDirectoryValid(users: seq<User>, callerId: Id, contacts: Option<seq<ContactInput>>)
    requires ValidDirectory(users)
    ensures var r := AddEmergencyContacts(users, callerId, contacts);
            r.Ok? ==> ValidDirectory(r.value)
  {
    var r := AddEmergencyContacts(users, callerId, contacts);
    if r.Ok? {
      var i := Find(users, callerId).value;
      ReplaceKeepsDirectoryValid(users, i, r.value[i]);
      assert r.value == users[i := r.value[i]];
    }
  }
}

=== FILE: ranking.dfy ===
/** The ride search: score every candidate ride the store returned and order
    the results best-first. The candidate query itself (route patterns, free
    seats, departure not earlier than requested) is the store's job and its
    result is an input here. */
module Ranking {
  import opened Replies
  import opened UserModel
  import opened RideModel
  import opened Matching
  import StableSort

  /** A ride as the search returns it, with its score attached. */
  datatype MatchResult = MatchResult(ride: Ride, matchScore: Option<real>)

  function ScoreAll(c: Criteria, rides: seq<Ride>): (r: seq<MatchResult>)
    ensures |r| == |rides|
    ensures forall i :: 0 <= i < |rides| ==> r[i] == MatchResult(rides[i], MatchScore(c, rides[i]))
  {
    seq(|rides|, i requires 0 <= i < |rides| => MatchResult(rides[i], MatchScore(c, rides[i])))
  }

  /** The comparator `(a, b) => b.matchScore - a.matchScore` is negative: `a`
      scores strictly higher. A `NaN` difference counts as zero. */
  predicate RanksAhead(a: MatchResult, b: MatchResult) {
    a.matchScore.Some? && b.matchScore.Some? && a.matchScore.value > b.matchScore.value
  }

  function ScoreOf(m: MatchResult): real {
    m.matchScore.GetOr(0.0)
  }

  /** The scored candidates, sorted best-first. */
  function Rank(c: Criteria, rides: seq<Ride>): (r: seq<MatchResult>)
    ensures multiset(r) == multiset(ScoreAll(c, rides))
  {
    StableSort.Sort(ScoreAll(c, rides), RanksAhead)
  }

  const OnlyRidersSearch := Error(Forbidden, "Only Riders can search and request rides")

  /** The search handler: the caller's own record must exist and be a Rider.
      The answer is the ranking, best score first, or the store's order when
      every score is undefined. */
  function FindRides(caller: Option<User>, c: Criteria, candidates: seq<Ride>): (r: Result<seq<MatchResult>>)
    ensures r.Ok? <==> caller.Some? && caller.value.role == Rider
    ensures r.Err? ==> r.error == OnlyRidersSearch
    ensures r.Ok? ==> |r.value| == |candidates|
    ensures r.Ok? ==> forall m :: m in r.value ==> m.ride in candidates && m.matchScore == MatchScore(c, m.ride)
    ensures r.Ok? ==> r.value == Rank(c, candidates)
    ensures r.Ok? && c.preferences != Keyed(map[]) ==>
              forall i, j :: 0 <= i < j < |r.value| ==>
                r.value[i].matchScore.Some? && r.value[j].matchScore.Some? &&
                r.value[i].matchScore.value >= r.value[j].matchScore.value
    ensures r.Ok? && c.preferences == Keyed(map[]) ==> r.value == ScoreAll(c, candidates)
  {
    if caller.None? || caller.value.role != Rider then Err(OnlyRidersSearch)
    else
      var ranked := Rank(c, candidates);
      assert forall m :: m in ranked ==> m in multiset(ScoreAll(c, candidates));
      if c.preferences != Keyed(map[]) then
        RankBestFirst(c, candidates);
        Ok(ranked)
      else
        RankUndefinedKeepsOrder(c, candidates);
        Ok(ranked)
  }

  /** The ranked list holds every candidate exactly as often as the store
      returned it, with its own score. */
  lemma RankIsPermutation(c: Criteria, rides: seq<Ride>, x: Ride)
    ensures multiset(Rank(c, rides))[MatchResult(x, MatchScore(c, x))] == multiset(rides)[x]
  {
    MultiplicityPreserved(c, rides, x);
  }

  /** Results that carry their own ride, and carry `y` wherever the ride is
      `x`, hold `y` exactly as often as the rides hold `x`. */
  lemma {:induction false} TaggedMultiplicity(rides: seq<Ride>, tagged: seq<MatchResult>, x: Ride, y: MatchResult)
    requires |tagged| == |rides|
    requires forall i :: 0 <= i < |rides| ==> tagged[i].ride == rides[i]
    requires y.ride == x
    requires forall i :: 0 <= i < |rides| && rides[i] == x ==> tagged[i] == y
    ensures multiset(tagged)[y] == multiset(rides)[x]
  {
    if |rides| > 0 {
      TaggedMultiplicity(rides[1..], tagged[1..], x, y);
      assert rides == [rides[0]] + rides[1..];
      assert tagged == [tagged[0]] + tagged[1..];
      assert tagged[0] == y <==> rides[0] == x;
    }
  }

  lemma MultiplicityPreserved(c: Criteria, rides: seq<Ride>, x: Ride)
    ensures multiset(ScoreAll(c, rides))[MatchResult(x, MatchScore(c, x))] == multiset(rides)[x]
  {
    TaggedMultiplicity(rides, ScoreAll(c, rides), x, MatchResult(x, MatchScore(c, x)));
  }

  lemma ScoresOrderedByKey(c: Criteria, rides: seq<Ride>)
    requires c.preferences != Keyed(map[])
    ensures StableSort.OrdersByKey(ScoreAll(c, rides), RanksAhead, ScoreOf)
  {
    var scored := ScoreAll(c, rides);
    forall m | m in scored ensures m.matchScore.Some? {
      var i :| 0 <= i < |scored| && scored[i] == m;
    }
  }

  /** With a defined score the results come best-first. */
  lemma RankBestFirst(c: Criteria, rides: seq<Ride>)
    requires c.preferences != Keyed(map[])
    ensures forall m :: m in Rank(c, rides) ==> m.matchScore.Some?
    ensures forall i, j :: 0 <= i < j < |Rank(c, rides)| ==>
              Rank(c, rides)[i].matchScore.value >= Rank(c, rides)[j].matchScore.value
  {
    ScoresOrderedByKey(c, rides);
    StableSort.SortDescending(ScoreAll(c, rides), RanksAhead, ScoreOf);
    var r := Rank(c, rides);
    forall m | m in r ensures m.matchScore.Some? {
      assert m in multiset(ScoreAll(c, rides));
    }
  }

  /** Rides with equal scores stay in the order the store returned them. */
  lemma RankKeepsTies(c: Criteria, rides: seq<Ride>, v: real)
    requires c.preferences != Keyed(map[])
    ensures StableSort.WithKey(Rank(c, rides), ScoreOf, v) == StableSort.WithKey(ScoreAll(c, rides), ScoreOf, v)
  {
    ScoresOrderedByKey(c, rides);
    StableSort.SortKeepsTies(ScoreAll(c, rides), RanksAhead, ScoreOf, v);
  }

  /** A preference object without keys makes every score `NaN`; the
      comparator then never separates two rides and the store's order is
      returned unchanged. */
  lemma RankUndefinedKeepsOrder(c: Criteria, rides: seq<Ride>)
    requires c.preferences == Keyed(map[])
    ensures Rank(c, rides) == ScoreAll(c, rides)
    ensures forall m :: m in Rank(c, rides) ==> m.matchScore.None?
  {
    var scored := ScoreAll(c, rides);
    forall a, b | a in scored && b in scored ensures !RanksAhead(a, b) {
      var i :| 0 <= i < |scored| && scored[i] == a;
    }
    StableSort.SortWithoutPrecedence(scored, RanksAhead);
  }
}

=== FILE: replies.dfy ===
/** Failure-carrying values shared by every handler of the backend.
    An `Error` is the HTTP status and JSON `message` a handler answers with;
    a handler that answers with an error persists nothing. */
module Replies {

  datatype Option<T> = None | Some(value: T) {
    function GetOr(default: T): T {
      match this
      case Some(v) => v
      case None => default
    }
  }

  /** HTTP status code and the `message` field of the JSON body. */
  datatype Error = Error(status: nat, message: string)

  datatype Result<T> = Ok(value: T) | Err(error: Error)

  const BadRequest: nat := 400
  const Unauthorized: nat := 401
  const Forbidden: nat := 403
  const NotFound: nat := 404
  const ServerError: nat := 500
}

=== FILE: ride_model.dfy ===
/** The `Ride` document: a driver's offer with its route, departure, seat
    count, preferences, and the riders who asked to join or were accepted. */
module RideModel {
  import opened Replies
  import opened UserModel

  datatype Preferences = Preferences(music: bool, smoking: bool, petsAllowed: bool)

  /** Preferences as a client supplies them when creating a ride. */
  datatype PreferencesInput = PreferencesInput(music: Option<bool>, smoking: Option<bool>, petsAllowed: Option<bool>)

  /** Each preference a client leaves out defaults to false. */
  function WithDefaults(p: PreferencesInput): (r: Preferences)
    ensures p.music.Some? ==> r.music == p.music.value
    ensures p.smoking.Some? ==> r.smoking == p.smoking.value
    ensures p.petsAllowed.Some? ==> r.petsAllowed == p.petsAllowed.value
    ensures p.music.None? ==> !r.music
    ensures p.smoking.None? ==> !r.smoking
    ensures p.petsAllowed.None? ==> !r.petsAllowed
  {
    Preferences(p.music.GetOr(false), p.smoking.GetOr(false), p.petsAllowed.GetOr(false))
  }

  /** `ride.preferences[key]`: the three schema keys hold booleans, every other
      key reads as `undefined`. */
  function PreferenceValue(p: Preferences, key: string): (r: Option<bool>)
    ensures r.Some? <==> key == "music" || key == "smoking" || key == "petsAllowed"
    ensures key == "music" ==> r == Some(p.music)
    ensures key == "smoking" ==> r == Some(p.smoking)
    ensures key == "petsAllowed" ==> r == Some(p.petsAllowed)
  {
    if key == "music" then Some(p.music)
    else if key == "smoking" then Some(p.smoking)
    else if key == "petsAllowed" then Some(p.petsAllowed)
    else None
  }

  datatype Vehicle = Vehicle(model: Option<string>, licensePlate: Option<string>, color: Option<string>)

  /** Departure times are milliseconds since the epoch, as `Date` holds them. */
  datatype Ride = Ride(
    id: Id,
    driver: Id,
    pickupLocation: string,
    dropLocation: string,
    departureTime: int,
    availableSeats: int,
    vehicle: Vehicle,
    preferences: Preferences,
    requests: seq<Id>,      // riders who asked to join, in arrival order
    passengers: seq<Id>)    // approved riders; duplicates are not excluded

  /** The schema's `min` on `availableSeats`. */
  const MinSeats: int := 1

  /** What the schema checks on every save: the route endpoints are non-empty
      and at least one seat is left. Driver and departure are always present
      in this representation. */
  predicate Valid(r: Ride) {
    r.pickupLocation != "" && r.dropLocation != "" && r.availableSeats >= MinSeats
  }

  const RideRejected := Error(ServerError, "Ride validation failed")

  /** `ride.save()`: a document that breaks the schema is not stored. */
  function Save(r: Ride): (res: Result<Ride>)
    ensures res.Ok? <==> r.pickupLocation != "" && r.dropLocation != "" && r.availableSeats >= 1
    ensures res.Ok? ==> res.value == r
    ensures res.Err? ==> res.error.status == ServerError
  {
    if Valid(r) then Ok(r) else Err(RideRejected)
  }
}

=== FILE: ride_requests.dfy ===
/** The life of a ride offer: a driver creates it, riders ask to join, and the
    owning driver approves or rejects each request. Each handler answers with
    the ride as it is stored afterwards, or with the error it reports, in
    which case nothing is stored. */
module RideRequests {
  import opened Replies
  import opened Text
  import opened UserModel
  import opened RideModel

  /** The body of a create request; any field may be missing. */
  datatype RideInput = RideInput(
    pickupLocation: Option<string>,
    dropLocation: Option<string>,
    departureTime: Option<int>,
    availableSeats: Option<int>,
    vehicle: Vehicle,
    preferences: PreferencesInput)

  const DriversOnly := Error(Forbidden, "Forbidden: Only Drivers can create rides")
  const MissingRideFields := Error(BadRequest, "All required fields must be filled")
  const OnlyRidersRequest := Error(Forbidden, "Only Riders can request rides")
  const RideNotFound := Error(NotFound, "Ride not found")
  const NoSeats := Error(BadRequest, "No seats available in this ride")
  const AlreadyRequested := Error(BadRequest, "You have already requested this ride")
  const NotOwner := Error(NotFound, "Ride not found or unauthorized")
  const InvalidStatus := Error(BadRequest, "Invalid status. Use \"approve\" or \"reject\"")
  const ServerFailure := Error(ServerError, "Server error")

  /** A seat count used as a condition: missing or zero is falsy. */
  predicate SeatsGiven(s: Option<int>) {
    s.Some? && s.value != 0
  }

  /** `createRide`. A negative seat count passes the presence check but not
      the schema, so the save fails. */
  function CreateRide(caller: User, rideId: Id, input: RideInput): (r: Result<Ride>)
    ensures caller.role != Driver ==> r == Err(DriversOnly)
    ensures caller.role == Driver &&
            !(Truthy(input.pickupLocation) && Truthy(input.dropLocation) &&
              input.departureTime.Some? && SeatsGiven(input.availableSeats))
            ==> r == Err(MissingRideFields)
    ensures r.Ok? <==> caller.role == Driver && Truthy(input.pickupLocation) && Truthy(input.dropLocation)
                       && input.departureTime.Some? && input.availableSeats.Some? && input.availableSeats.value >= 1
    ensures r.Ok? ==> Valid(r.value) && r.value.id == rideId && r.value.driver == caller.id
    ensures r.Ok? ==> r.value.pickupLocation == input.pickupLocation.value && r.value.dropLocation == input.dropLocation.value
                      && r.value.departureTime == input.departureTime.value && r.value.availableSeats == input.availableSeats.value
                      && r.value.vehicle == input.vehicle && r.value.preferences == WithDefaults(input.preferences)
    ensures r.Ok? ==> r.value.requests == [] && r.value.passengers == []
    ensures caller.role == Driver && Truthy(input.pickupLocation) && Truthy(input.dropLocation)
            && input.departureTime.Some? && SeatsGiven(input.availableSeats) && input.availableSeats.value < 1
            ==> r == Err(RideRejected)
  {
    if caller.role != Driver then Err(DriversOnly)
    else if !Truthy(input.pickupLocation) || !Truthy(input.dropLocation)
            || input.departureTime.None? || !SeatsGiven(input.availableSeats) then Err(MissingRideFields)
    else Save(Ride(rideId, caller.id, input.pickupLocation.value, input.dropLocation.value,
                   input.departureTime.value, input.availableSeats.value, input.vehicle,
                   WithDefaults(input.preferences), [], []))
  }

  /** A failed save answered by a handler's own catch, with its own message. */
  function Reported(r: Result<Ride>, e: Error): Result<Ride> {
    if r.Ok? then r else Err(e)
  }

  /** `requestToJoinRide`, given the caller's own record and the ride looked
      up by identifier. */
  function RequestToJoin(caller: Option<User>, ride: Option<Ride>): (r: Result<Ride>)
    ensures (caller.None? || caller.value.role != Rider) ==> r == Err(OnlyRidersRequest)
    ensures caller.Some? && caller.value.role == Rider && ride.None? ==> r == Err(RideNotFound)
    ensures caller.Some? && caller.value.role == Rider && ride.Some? && ride.value.availableSeats <= 0
            ==> r == Err(NoSeats)
    ensures (caller.Some? && caller.value.role == Rider && ride.Some? && ride.value.availableSeats > 0
             && caller.value.id in ride.value.requests) ==> r == Err(AlreadyRequested)
    ensures r.Ok? ==> ride.Some? && caller.Some? &&
                      r.value == ride.value.(requests := ride.value.requests + [caller.value.id])
    ensures (caller.Some? && caller.value.role == Rider && ride.Some? && Valid(ride.value)
             && caller.value.id !in ride.value.requests) ==> r.Ok?
    ensures (caller.Some? && caller.value.role == Rider && ride.Some? && ride.value.availableSeats > 0
             && caller.value.id !in ride.value.requests && r.Err?) ==> r == Err(ServerFailure)
  {
    if caller.None? || caller.value.role != Rider then Err(OnlyRidersRequest)
    else if ride.None? then Err(RideNotFound)
    else if ride.value.availableSeats <= 0 then Err(NoSeats)
    else if caller.value.id in ride.value.requests then Err(AlreadyRequested)
    else Reported(Save(ride.value.(requests := ride.value.requests + [caller.value.id])), ServerFailure)
  }

  /** `requests.filter(id => id !== x)`: every occurrence of `x` goes, every
      other entry stays. */
  function Without(s: seq<Id>, x: Id): (r: seq<Id>)
    ensures x !in r
    ensures forall y :: y != x ==> multiset(r)[y] == multiset(s)[y]
    ensures x !in s ==> r == s
  {
    if |s| == 0 then []
    else
      assert s == [s[0]] + s[1..];
      (if s[0] == x then [] else [s[0]]) + Without(s[1..], x)
  }

  /** Filtering a concatenation filters each part and keeps the parts in
      order, so the entries that stay keep their relative order. */
  lemma {:induction false} WithoutKeepsOrder(a: seq<Id>, b: seq<Id>, x: Id)
    ensures Without(a + b, x) == Without(a, x) + Without(b, x)
    decreases |a|
  {
    if |a| > 0 {
      assert (a + b)[1..] == a[1..] + b;
      WithoutKeepsOrder(a[1..], b, x);
    } else {
      assert a + b == b;
    }
  }

  /** `respondToRideRequest`: the owning driver approves or rejects a rider.
      Approval checks neither the seat count nor that the rider had asked;
      the schema then refuses to store a ride whose last seat was taken. */
  function Respond(callerId: Id, ride: Option<Ride>, riderId: Id, status: string): (r: Result<Ride>)
    ensures (ride.None? || ride.value.driver != callerId) ==> r == Err(NotOwner)
    ensures ride.Some? && ride.value.driver == callerId && status != "approve" && status != "reject"
            ==> r == Err(InvalidStatus)
    ensures ride.Some? && ride.value.driver == callerId && status == "approve" ==>
              && (r.Ok? <==> (ride.value.pickupLocation != "" && ride.value.dropLocation != ""
                              && ride.value.availableSeats >= 2))
              && (r.Ok? ==> r.value == ride.value.(passengers := ride.value.passengers + [riderId],
                                                   availableSeats := ride.value.availableSeats - 1,
                                                   requests := Without(ride.value.requests, riderId)))
              && (r.Err? ==> r.error == ServerFailure)
    ensures ride.Some? && ride.value.driver == callerId && status == "reject" ==>
              && (r.Ok? <==> Valid(ride.value))
              && (r.Ok? ==> r.value == ride.value.(requests := Without(ride.value.requests, riderId)))
              && (r.Err? ==> r.error == ServerFailure)
  {
    if ride.None? || ride.value.driver != callerId then Err(NotOwner)
    else if status == "approve" then
      var rd := ride.value;
      Reported(Save(rd.(passengers := rd.passengers + [riderId],
                        availableSeats := rd.availableSeats - 1,
                        requests := Without(rd.requests, riderId))), ServerFailure)
    else if status == "reject" then
      Reported(Save(ride.value.(requests := Without(ride.value.requests, riderId))), ServerFailure)
    else Err(InvalidStatus)
  }

  /** The text message sent to an approved rider. */
  datatype Sms = Sms(to: Option<string>, text: string)

  const ApprovalPrefix := "\U{1F697} Your ride with "
  const ApprovalSuffix := " has been approved!"

  /** The notification after a stored approval. A rider identifier with no
      user record makes reading its phone throw; the handler then answers
      with a server error although the approval is already stored. */
  function ApprovalNotice(rider: Option<User>, driverName: string): (r: Result<Sms>)
    ensures r.Ok? <==> rider.Some?
    ensures r.Err? ==> r.error.status == ServerError
    ensures r.Ok? ==> r.value.to == rider.value.phone
    ensures r.Ok? ==> |r.value.text| == |ApprovalPrefix| + |driverName| + |ApprovalSuffix|
                      && r.value.text[|ApprovalPrefix|..|ApprovalPrefix| + |driverName|] == driverName
  {
    if rider.None? then Err(ServerFailure)
    else Ok(Sms(rider.value.phone, ApprovalPrefix + driverName + ApprovalSuffix))
  }

  /** One client call against a stored ride. */
  datatype Action =
    | Join(caller: Option<User>)
    | Decide(callerId: Id, riderId: Id, status: string)

  /** The ride as stored after one call: a call that fails stores nothing. */
  function Step(ride: Ride, a: Action): Ride {
    var r := match a
      case Join(caller) => RequestToJoin(caller, Some(ride))
      case Decide(callerId, riderId, status) => Respond(callerId, Some(ride), riderId, status);
    if r.Ok? then r.value else ride
  }

  function Run(ride: Ride, actions: seq<Action>): Ride
    decreases |actions|
  {
    if |actions| == 0 then ride else Run(Step(ride, actions[0]), actions[1..])
  }

  /** Seats and passengers trade one for one: over any sequence of calls the
      stored ride stays valid, keeps its owner and route, and the free seats
      plus the passengers stay what they were. */
  lemma {:induction false} RunKeepsSeatAccount(ride: Ride, actions: seq<Action>)
    requires Valid(ride)
    ensures var after := Run(ride, actions);
            && Valid(after)
            && after.driver == ride.driver
            && after.pickupLocation == ride.pickupLocation && after.dropLocation == ride.dropLocation
            && after.departureTime == ride.departureTime
            && after.availableSeats + |after.passengers| == ride.availableSeats + |ride.passengers|
    decreases |actions|
  {
    if |actions| > 0 {
      var next := Step(ride, actions[0]);
      assert next.availableSeats + |next.passengers| == ride.availableSeats + |ride.passengers|;
      RunKeepsSeatAccount(next, actions[1..]);
    }
  }

  /** As written, a ride created with `n` seats never carries more than
      `n - 1` passengers: approving the last seat always fails. */
  lemma LastSeatNeverTaken(ride: Ride, actions: seq<Action>)
    requires Valid(ride) && ride.passengers == []
    ensures |Run(ride, actions).passengers| <= ride.availableSeats - 1
  {
    RunKeepsSeatAccount(ride, actions);
  }

  /** Approval does not ask whether the rider had requested the ride, nor
      whether they are already a passenger: the same rider can be added twice. */
  lemma ApprovalUnchecked(ride: Ride, riderId: Id)
    requires Valid(ride) && ride.availableSeats >= 2
    ensures var r := Respond(ride.driver, Some(ride), riderId, "approve");
            r.Ok? && r.value.passengers == ride.passengers + [riderId]
  {
  }

  /** A passenger is not kept out of the requests: nothing stops an approved
      rider from asking to join the same ride again. */
  lemma PassengerMayRequestAgain(rider: User, ride: Ride)
    requires Valid(ride) && rider.role == Rider
    requires rider.id in ride.passengers && rider.id !in ride.requests
    ensures var r := RequestToJoin(Some(rider), Some(ride));
            r.Ok? && rider.id in r.value.requests && rider.id in r.value.passengers
  {
  }

  /** With a schema minimum of zero seats and a seat check before approving,
      the last seat can be taken and the count never goes below zero. */
  predicate ValidAllowingFull(r: Ride) {
    r.pickupLocation != "" && r.dropLocation != "" && r.availableSeats >= 0
  }

  function SaveAllowingFull(r: Ride): (res: Result<Ride>)
    ensures res.Ok? <==> ValidAllowingFull(r)
    ensures res.Ok? ==> res.value == r
  {
    if ValidAllowingFull(r) then Ok(r) else Err(RideRejected)
  }

  function RespondCorrected(callerId: Id, ride: Option<Ride>, riderId: Id, status: string): (r: Result<Ride>)
    ensures (ride.None? || ride.value.driver != callerId) ==> r == Err(NotOwner)
    ensures ride.Some? && ride.value.driver == callerId && status == "approve" && ValidAllowingFull(ride.value) ==>
              && (r.Ok? <==> ride.value.availableSeats >= 1)
              && (r.Err? ==> r.error == NoSeats)
              && (r.Ok? ==> r.value == ride.value.(passengers := ride.value.passengers + [riderId],
                                                   availableSeats := ride.value.availableSeats - 1,
                                                   requests := Without(ride.value.requests, riderId)))
    ensures ride.Some? && ride.value.driver == callerId && status == "reject" && ValidAllowingFull(ride.value) ==>
              r == Ok(ride.value.(requests := Without(ride.value.requests, riderId)))
    ensures r.Ok? ==> ValidAllowingFull(r.value)
  {
    if ride.None? || ride.value.driver != callerId then Err(NotOwner)
    else if status == "approve" then
      var rd := ride.value;
      if rd.availableSeats <= 0 then Err(NoSeats)
      else Reported(SaveAllowingFull(rd.(passengers := rd.passengers + [riderId],
                                         availableSeats := rd.availableSeats - 1,
                                         requests := Without(rd.requests, riderId))), ServerFailure)
    else if status == "reject" then
      Reported(SaveAllowingFull(ride.value.(requests := Without(ride.value.requests, riderId))), ServerFailure)
    else Err(InvalidStatus)
  }

  /** With the correction the last seat is taken and the ride is then full. */
  lemma LastSeatTakenWhenCorrected(ride: Ride, riderId: Id)
    requires Valid(ride) && ride.availableSeats == 1
    ensures Respond(ride.driver, Some(ride), riderId, "approve") == Err(ServerFailure)
    ensures var r := RespondCorrected(ride.driver, Some(ride), riderId, "approve");
            r.Ok? && r.value.availableSeats == 0 && r.value.passengers == ride.passengers + [riderId]
  {
  }

  /** One call against a stored ride under the corrected approval. */
  function StepCorrected(ride: Ride, a: Action): Ride {
    var r := match a
      case Join(caller) => RequestToJoin(caller, Some(ride))
      case Decide(callerId, riderId, status) => RespondCorrected(callerId, Some(ride), riderId, status);
    if r.Ok? then r.value else ride
  }

  function RunCorrected(ride: Ride, actions: seq<Action>): Ride
    decreases |actions|
  {
    if |actions| == 0 then ride else RunCorrected(StepCorrected(ride, actions[0]), actions[1..])
  }

  /** Under the corrected approval the seat account is still kept, and the
      free seats never go below zero: a ride offered with `n` seats carries at
      most `n` passengers. */
  lemma {:induction false} RunCorrectedKeepsSeatAccount(ride: Ride, actions: seq<Action>)
    requires ValidAllowingFull(ride)
    ensures var after := RunCorrected(ride, actions);
            && ValidAllowingFull(after)
            && after.driver == ride.driver
            && after.availableSeats + |after.passengers| == ride.availableSeats + |ride.passengers|
            && |after.passengers| <= ride.availableSeats + |ride.passengers|
    decreases |actions|
  {
    if |actions| > 0 {
      var next := StepCorrected(ride, actions[0]);
      assert next.availableSeats + |next.passengers| == ride.availableSeats + |ride.passengers|;
      RunCorrectedKeepsSeatAccount(next, actions[1..]);
    }
  }
}

=== FILE: stable_sort.dfy ===
/** A stable sort driven by a comparator, the way `Array.prototype.sort`
    behaves: `before(a, b)` holds when the comparator puts `a` strictly ahead of
    `b` (returns a negative number); a comparator that returns zero or `NaN`
    keeps the two in input order. Modelled as insertion from the back, which
    yields the one stable arrangement whenever the comparator is consistent. */
module StableSort {

  /** Insert `x`, which came before every element of `l` in the input, after
      exactly those leading elements that must precede it. */
  function Insert<T>(x: T, l: seq<T>, before: (T, T) -> bool): (r: seq<T>)
    ensures multiset(r) == multiset(l) + multiset{x}
    ensures |r| == |l| + 1
    decreases |l|
  {
    if |l| == 0 || !before(l[0], x) then [x] + l
    else
      assert l == [l[0]] + l[1..];
      [l[0]] + Insert(x, l[1..], before)
  }

  function Sort<T>(s: seq<T>, before: (T, T) -> bool): (r: seq<T>)
    ensures multiset(r) == multiset(s)
    ensures |r| == |s|
  {
    if |s| == 0 then []
    else
      assert s == [s[0]] + s[1..];
      Insert(s[0], Sort(s[1..], before), before)
  }

  /** On the elements of `s`, the comparator orders by `key`, highest first. */
  ghost predicate OrdersByKey<T>(s: seq<T>, before: (T, T) -> bool, key: T -> real) {
    forall a, b :: a in s && b in s ==> (before(a, b) <==> key(a) > key(b))
  }

  ghost predicate Descending<T>(s: seq<T>, key: T -> real) {
    forall i, j :: 0 <= i < j < |s| ==> key(s[i]) >= key(s[j])
  }

  /** The elements of `s` whose key is `v`, in their order in `s`. */
  function WithKey<T>(s: seq<T>, key: T -> real, v: real): seq<T> {
    if |s| == 0 then []
    else (if key(s[0]) == v then [s[0]] else []) + WithKey(s[1..], key, v)
  }

  /** Putting an element no lower than any other in front keeps a descending
      sequence descending. */
  lemma PrependDescending<T>(h: T, rest: seq<T>, key: T -> real)
    requires Descending(rest, key)
    requires forall k :: 0 <= k < |rest| ==> key(h) >= key(rest[k])
    ensures Descending([h] + rest, key)
  {
    var r := [h] + rest;
    forall i, j | 0 <= i < j < |r| ensures key(r[i]) >= key(r[j]) {
      assert r[j] == rest[j - 1];
      if i > 0 {
        assert r[i] == rest[i - 1];
      }
    }
  }

  lemma {:induction false} InsertDescending<T>(x: T, l: seq<T>, before: (T, T) -> bool, key: T -> real)
    requires OrdersByKey([x] + l, before, key)
    requires Descending(l, key)
    ensures Descending(Insert(x, l, before), key)
    decreases |l|
  {
    if |l| == 0 || !before(l[0], x) {
      if |l| > 0 {
        assert l[0] in [x] + l;
        assert key(x) >= key(l[0]);
        assert forall k :: 0 <= k < |l| ==> key(l[0]) >= key(l[k]);
      }
      PrependDescending(x, l, key);
    } else {
      var t := l[1..];
      assert l[0] in [x] + l && x in [x] + l;
      assert key(l[0]) > key(x);
      assert forall a :: a in [x] + t ==> a in [x] + l;
      assert Descending(t, key);
      InsertDescending(x, t, before, key);
      var rest := Insert(x, t, before);
      forall k | 0 <= k < |rest| ensures key(l[0]) >= key(rest[k]) {
        assert rest[k] in multiset(t) + multiset{x};
        if rest[k] != x {
          assert rest[k] in t;
          var m :| 0 <= m < |t| && t[m] == rest[k];
          assert t[m] == l[m + 1];
        }
      }
      PrependDescending(l[0], rest, key);
    }
  }

  /** A comparator that orders by a key sorts by that key, highest first. */
  lemma {:induction false} SortDescending<T>(s: seq<T>, before: (T, T) -> bool, key: T -> real)
    requires OrdersByKey(s, before, key)
    ensures Descending(Sort(s, before), key)
  {
    if |s| > 0 {
      var t := s[1..];
      assert forall a :: a in t ==> a in s;
      SortDescending(t, before, key);
      var sorted := Sort(t, before);
      forall a | a in [s[0]] + sorted ensures a in s {
        if a != s[0] {
          assert a in multiset(sorted);
        }
      }
      InsertDescending(s[0], sorted, before, key);
    }
  }

  lemma {:induction false} InsertWithKey<T>(x: T, l: seq<T>, before: (T, T) -> bool, key: T -> real, v: real)
    requires OrdersByKey([x] + l, before, key)
    ensures WithKey(Insert(x, l, before), key, v) == (if key(x) == v then [x] else []) + WithKey(l, key, v)
    decreases |l|
  {
    if |l| == 0 || !before(l[0], x) {
      assert ([x] + l)[1..] == l;
    } else {
      var t := l[1..];
      assert l[0] in [x] + l && x in [x] + l;
      assert forall a :: a in [x] + t ==> a in [x] + l;
      InsertWithKey(x, t, before, key, v);
      var r := [l[0]] + Insert(x, t, before);
      assert r[1..] == Insert(x, t, before);
      assert WithKey(l, key, v) == (if key(l[0]) == v then [l[0]] else []) + WithKey(t, key, v);
    }
  }

  /** Stability: among elements with equal keys the input order survives. */
  lemma {:induction false} SortKeepsTies<T>(s: seq<T>, before: (T, T) -> bool, key: T -> real, v: real)
    requires OrdersByKey(s, before, key)
    ensures WithKey(Sort(s, before), key, v) == WithKey(s, key, v)
  {
    if |s| > 0 {
      var t := s[1..];
      assert forall a :: a in t ==> a in s;
      SortKeepsTies(t, before, key, v);
      var sorted := Sort(t, before);
      forall a | a in [s[0]] + sorted ensures a in s {
        if a != s[0] {
          assert a in multiset(sorted);
        }
      }
      InsertWithKey(s[0], sorted, before, key, v);
    }
  }

  /** A comparator that never puts one element ahead of another (one that
      always answers zero or `NaN`) leaves the input as it is. */
  lemma {:induction false} SortWithoutPrecedence<T>(s: seq<T>, before: (T, T) -> bool)
    requires forall a, b :: a in s && b in s ==> !before(a, b)
    ensures Sort(s, before) == s
  {
    if |s| > 0 {
      var t := s[1..];
      assert forall a :: a in t ==> a in s;
      SortWithoutPrecedence(t, before);
      if |t| > 0 {
        assert t[0] in s && s[0] in s;
      }
      assert s == [s[0]] + t;
    }
  }
}

=== FILE: text.dfy ===
/** String helpers with the meaning JavaScript gives them. Strings are
    sequences of characters; `toLowerCase` is restricted to ASCII. */
module Text {
  import opened Replies

  /** `toLowerCase` on one character, ASCII letters only. */
  function LowerChar(c: char): char {
    if 'A' <= c <= 'Z' then (c as int + 32) as char else c
  }

  function Lower(s: string): (r: string)
    ensures |r| == |s|
    ensures forall i :: 0 <= i < |s| ==> r[i] == LowerChar(s[i])
  {
    seq(|s|, i requires 0 <= i < |s| => LowerChar(s[i]))
  }

  /** `a.toLowerCase() === b.toLowerCase()`. */
  predicate SameIgnoringCase(a: string, b: string) {
    Lower(a) == Lower(b)
  }

  /** A JavaScript value used as a condition: a string is falsy when it is
      missing or empty. */
  predicate Truthy(s: Option<string>) {
    s.Some? && |s.value| > 0
  }

  /** The ASCII digits the regular-expression class `\d` matches. */
  predicate IsDigit(c: char) {
    '0' <= c <= '9'
  }

  /** The characters the regular-expression class `\s` matches in
      JavaScript: white space and line terminators. */
  predicate IsSpace(c: char) {
    || c == '\t' || c == '\n' || c == '\U{B}' || c == '\U{C}' || c == '\r'
    || c == ' ' || c == '\U{A0}' || c == '\U{1680}'
    || ('\U{2000}' <= c <= '\U{200A}')
    || c == '\U{2028}' || c == '\U{2029}' || c == '\U{202F}' || c == '\U{205F}'
    || c == '\U{3000}' || c == '\U{FEFF}'
  }

  /** `s.charAt(i)`: the one-character string at `i`, or `""` out of range. */
  function CharAt(s: string, i: int): (r: string)
    ensures |r| <= 1
    ensures |r| == 1 <==> 0 <= i < |s|
    ensures |r| == 1 ==> r[0] == s[i]
  {
    if 0 <= i < |s| then [s[i]] else ""
  }

  /** `s.slice(-n)` for n > 0: the last `n` characters, or all of `s` when it
      is shorter. */
  function LastChars(s: string, n: nat): (r: string)
    ensures |r| == if |s| < n then |s| else n
    ensures r == s[|s| - |r|..]
  {
    if |s| < n then s else s[|s| - n..]
  }
}

=== FILE: user_model.dfy ===
/** The `User` document of the backend: its fields, defaults, the checks the
    schema applies when a document is saved, and the unique indexes that hold
    across the whole user collection. */
module UserModel {
  import opened Replies
  import opened Text

  /** Document identifiers, compared by their string form. */
  type Id = string

  datatype Role = Driver | Rider

  /** The role a document gets when none is supplied. */
  const DefaultRole: Role := Rider

  function RoleName(r: Role): string {
    match r
    case Driver => "Driver"
    case Rider => "Rider"
  }

  /** The role enumeration: exactly the two names, case-sensitive. */
  function ParseRole(s: string): (r: Option<Role>)
    ensures r.Some? <==> s == "Driver" || s == "Rider"
    ensures r.Some? ==> RoleName(r.value) == s
  {
    if s == "Driver" then Some(Driver)
    else if s == "Rider" then Some(Rider)
    else None
  }

  /** Every role is spelled the way the enumeration accepts it back. */
  lemma RoleNameRoundTrip(r: Role)
    ensures ParseRole(RoleName(r)) == Some(r)
  {
  }

  datatype Privacy = Privacy(hideFullName: bool, blurProfilePicture: bool)

  const DefaultPrivacy: Privacy := Privacy(false, false)

  datatype Contact = Contact(name: string, phone: string)

  /** An emergency contact as a client supplies it: either field may be absent. */
  datatype ContactInput = ContactInput(name: Option<string>, phone: Option<string>)

  datatype User = User(
    id: Id,
    name: string,
    email: string,
    password: string,         // the stored bcrypt hash
    phone: Option<string>,
    role: Role,
    profilePicture: Option<string>,
    privacy: Privacy,
    emergencyContacts: seq<Contact>)

  /** Both fields of every emergency contact are required. */
  predicate ContactsComplete(cs: seq<Contact>) {
    forall i :: 0 <= i < |cs| ==> cs[i].name != "" && cs[i].phone != ""
  }

  /** Casting a client's contact list into sub-documents: the save fails
      unless every contact has a non-empty name and phone. */
  function CastContacts(inputs: seq<ContactInput>): (r: Result<seq<Contact>>)
    ensures r.Ok? <==> forall i :: 0 <= i < |inputs| ==> Truthy(inputs[i].name) && Truthy(inputs[i].phone)
    ensures r.Ok? ==> ContactsComplete(r.value) && |r.value| == |inputs|
    ensures r.Ok? ==> forall i :: 0 <= i < |inputs| ==>
                        r.value[i] == Contact(inputs[i].name.value, inputs[i].phone.value)
    ensures r.Err? ==> r.error.status == ServerError
  {
    if |inputs| == 0 then Ok([])
    else if !Truthy(inputs[0].name) || !Truthy(inputs[0].phone) then Err(ContactRejected)
    else match CastContacts(inputs[1..])
      case Err(e) => Err(e)
      case Ok(rest) => Ok([Contact(inputs[0].name.value, inputs[0].phone.value)] + rest)
  }

  const ContactRejected := Error(ServerError, "User validation failed: emergencyContacts: name and phone are required")

  /** What the schema demands of a stored document apart from the password,
      which is validated in plain text before it is hashed. */
  predicate WellFormed(u: User) {
    u.name != "" && u.email != "" && ContactsComplete(u.emergencyContacts)
  }

  /** The unique indexes of the collection: identifiers, emails and phones are
      pairwise distinct (a missing phone counts as one value, as it does for a
      non-sparse index). */
  predicate UniqueKeys(users: seq<User>) {
    forall i, j :: 0 <= i < j < |users| ==>
      users[i].id != users[j].id && users[i].email != users[j].email && users[i].phone != users[j].phone
  }

  predicate ValidDirectory(users: seq<User>) {
    UniqueKeys(users) && forall i :: 0 <= i < |users| ==> WellFormed(users[i])
  }

  /** A query on one string field of the collection: the position of the
      first document whose `key` field holds `v`. */
  function FindBy(users: seq<User>, key: User -> string, v: string): (r: Option<nat>)
    ensures r.Some? ==> r.value < |users| && key(users[r.value]) == v
    ensures r.Some? ==> forall j :: 0 <= j < r.value ==> key(users[j]) != v
    ensures r.None? <==> forall j :: 0 <= j < |users| ==> key(users[j]) != v
  {
    if |users| == 0 then None
    else if key(users[0]) == v then Some(0)
    else match FindBy(users[1..], key, v)
      case None => None
      case Some(k) => Some(k + 1)
  }

  function IdOf(u: User): Id { u.id }

  function EmailOf(u: User): string { u.email }

  /** `findById`. */
  function Find(users: seq<User>, id: Id): Option<nat> {
    FindBy(users, IdOf, id)
  }

  /** `findById`, answering with the document itself. */
  function Lookup(users: seq<User>, id: Id): (r: Option<User>)
    ensures r.Some? <==> exists k :: 0 <= k < |users| && users[k].id == id
    ensures r.Some? ==> r.value.id == id && r.value in users
    ensures r.Some? ==> exists k :: 0 <= k < |users| && users[k] == r.value
                           && forall j :: 0 <= j < k ==> users[j].id != id
  {
    match Find(users, id)
    case None => None
    case Some(k) => Some(users[k])
  }

  /** `findOne({ email })`. */
  function FindByEmail(users: seq<User>, email: string): Option<nat> {
    FindBy(users, EmailOf, email)
  }

  /** The password the pre-save hook leaves in the document: a newly assigned
      value is hashed, one that did not change is kept as it is. Assigning the
      stored value back does not count as a modification. */
  function PasswordOnSave(stored: string, supplied: string, hash: string -> string): (r: string)
    ensures supplied == stored ==> r == stored
    ensures supplied != stored ==> r == hash(supplied)
  {
    if supplied == stored then stored else hash(supplied)
  }

  /** A document created from the registration fields: every field the client
      does not supply takes its schema default, and the new password is hashed. */
  function NewUser(id: Id, name: string, email: string, password: string, phone: string,
                   role: Option<Role>, hash: string -> string): (u: User)
    ensures u.id == id && u.name == name && u.email == email && u.phone == Some(phone)
    ensures u.password == hash(password)
    ensures u.role == (if role.Some? then role.value else Rider)
    ensures !u.privacy.hideFullName && !u.privacy.blurProfilePicture
    ensures u.emergencyContacts == [] && u.profilePicture.None?
  {
    User(id, name, email, hash(password), Some(phone), role.GetOr(DefaultRole), None,
         DefaultPrivacy, [])
  }
}
